=== FILE: README.md ===
# License activation server — verified model

The server issues license keys for a desktop client. Each key is bound to one
machine, which is identified by its hardware id (HWID). This project models the
two endpoints of `app.py` that change the license table:

- **Activation** (`activar_licencia`). A client sends a license code and its
  HWID. There are six outcomes:
  - 400 when an input is missing or empty;
  - 404 when the code is unknown;
  - 403 when the license is already bound to another machine;
  - 200 for a revalidation from the bound machine, returning the token already stored;
  - 200 for a first activation, which binds the HWID and stores a fresh token;
  - 500 when the database rejects that first activation's commit.
- **Bulk provisioning** (`generar_claves`). Outside production it refuses with
  403. In production it adds `count` untouched rows in one transaction. Each
  row's code is a UUID4 text with the `-` removed, in upper case. A row
  rejected by the code column's unique constraint, or any other database
  failure, rolls the whole batch back and returns 500.

The table is an immutable `map` from license code to row (`LicenseModel.Store`).
Each endpoint is a pure function that returns the reply and the table after the
call (`LicenseModel.Handled`). A failed or refused call returns the table
unchanged. The caller supplies these values as parameters:

- the fresh token (`secrets.token_hex`);
- the UUID texts (`uuid.uuid4`);
- the `RAILWAY_ENVIRONMENT` variable;
- whether the database accepts the commit: `storeAvailable` for provisioning,
  and `commitAccepted` for the first activation's commit. A rejected
  activation commit escapes the handler, so the framework answers with its
  generic 500 page and the row stays unbound.

Modules:

- `LicenseModel` (`license_model.dfy`): the row, the table, the reply and the rows the endpoints can produce.
- `LicenseCodes` (`license_codes.dfy`): the code format. It proves that the code keeps every hex digit of the UUID, so distinct UUIDs give distinct codes.
- `Activation` (`activation.dfy`): the activation state machine, and series of activation requests.
- `Provisioning` (`provisioning.dfy`): the environment gate, the all-or-nothing batch insert, and the success message.

## Model

| member | source | states |
|---|---|---|
| LicenseModel.License | app.py:20-25 | a row holds the activation flag, the bound HWID and the local token; the code is the table's key and the surrogate `id` is left out |
| LicenseModel.Virgin | app.py:23-25 | a row created with only its code, as provisioning does at app.py:91: not activated, with no HWID and no token, as the column defaults give |
| LicenseModel.Bound | app.py:69-71 | the row a first activation writes: activated, bound to the requesting HWID, holding the fresh token |
| LicenseModel.Present | app.py:44 | a request field counts as given exactly when it is present and not the empty string, as Python truthiness treats a string |
| Activation.Activate | app.py:39-79 | the key set is unchanged; success iff status 200; a successful reply means the code is now bound to the requesting HWID; the only row that can change is the requested one, and only from unactivated to bound to this HWID with the fresh token |
| Activation.MissingInputRejected | app.py:40-45 | a missing or empty code or HWID gives 400, success false, "Datos incompletos.", and the table unchanged |
| Activation.UnknownCodeRejected | app.py:47-51 | a code with no row gives 404, success false, and the table unchanged |
| Activation.CopyAttemptRejected | app.py:53-64 | an activated row requested from a different HWID gives 403, success false, and the table unchanged |
| Activation.RevalidationReturnsStoredToken | app.py:53-61 | an activated row requested from its own HWID gives 200, success true, the stored token, and the table unchanged |
| Activation.FirstActivationBinds | app.py:65-79 | when the commit is accepted, an unactivated row becomes activated with this HWID and the fresh token; the reply is 200 with that same token; every other row is unchanged |
| Activation.FirstActivationCommitFails | app.py:65-73 | when the database rejects the first activation's commit, the error escapes the handler: the reply is the framework's 500 and the table is unchanged |
| Activation.SuccessExactlyWhenMachineMatches | app.py:44-79 | a request succeeds if and only if both inputs are present, the code exists, and the row is either bound to this HWID or unactivated with its commit accepted |
| Activation.StableToken | app.py:53-79 | when requests are handled one at a time, a repeat from the same HWID right after a successful activation also succeeds, returns the same token and writes nothing |
| Activation.ActivatePreservesWellFormed | app.py:65-71 | activation keeps every row either virgin or activated with a non-empty HWID and a token |
| Activation.Run | app.py:39-79 | a series of requests yields one reply per request and keeps the key set |
| Activation.BindingImmutable | app.py:53-64 | once a row is activated, no series of activation requests handled one at a time changes its HWID or its token |
| Activation.SuccessesMatchBinding | app.py:53-64 | in any series handled one at a time, every successful request on an activated row comes from the HWID it is bound to |
| Activation.OneMachinePerCode | app.py:53-79 | in any series handled one at a time, two successful requests for the same code come from the same HWID |
| Activation.ActivateInterleaved | app.py:48-73 | two requests served at the same time without a row lock: one reply each, the key set is kept, and every final row is either the old row or the row one of the two requests wrote |
| Activation.LostUpdate | app.py:48-79 | when both commits are accepted, two different machines activating the same unactivated code at the same time both get 200 with their own token, and the row ends up bound to the second machine |
| Activation.SerializedActivationRefusesSecond | app.py:53-79 | the same two requests handled one after the other, when the commits are accepted: the second machine gets 403 and the row keeps the first machine and its token |
| LicenseCodes.GenerateCode | app.py:28-31 | the code has no `-` and is no longer than the UUID text; its meaning is carried by `GenerateCodeShape`, `UuidTextOfGenerateCode` and `GenerateCodeInjective` |
| LicenseCodes.Upper | app.py:31 | the result has the input's length, no ASCII lower-case letter, and each character equals the input's up to letter case |
| LicenseCodes.RemoveDashes | app.py:31 | the result has the same set of characters as the input, less `-`, and is no longer than the input; that the other characters keep their order and multiplicity is carried by `RemoveDashesConcat` and `RemoveDashesNoDash` |
| LicenseCodes.RemoveDashesOfUuid | app.py:31 | removing the separators of a canonical UUID text leaves exactly its 32 hex digits, in order |
| LicenseCodes.GenerateCodeShape | app.py:22-31 | a code made from a UUID text is 32 upper-case hex digits, has no `-`, and fits the 36-character code column |
| LicenseCodes.UuidTextOfGenerateCode | app.py:31 | adding the separators back and lower-casing a generated code gives back the UUID text |
| LicenseCodes.GenerateCodeOfUuidText | app.py:31 | every 32-digit upper-case hex code is the code of the canonical UUID text `UuidTextOf` gives; that this text is the only one follows from `GenerateCodeInjective` |
| LicenseCodes.GenerateCodeInjective | app.py:28-31 | two UUID texts give the same code if and only if they are equal |
| Provisioning.DecimalText | app.py:94 | the count in the success message is a non-empty string of decimal digits with no leading zero |
| Provisioning.DecimalRoundTrip | app.py:94 | the decimal text of the count reads back as the count |
| Provisioning.SuccessMessage | app.py:94 | the message is the fixed prefix, then decimal digits that read back as the count, then the fixed suffix |
| Provisioning.BatchCodes | app.py:89-90 | one code per UUID, in the order the loop draws them; its set of codes is carried by `BatchCodesSet` |
| Provisioning.AddVirgins | app.py:89-93 | the rows of the table are kept as keys; what the loop adds is carried by `AddVirginsAddsBatch` |
| Provisioning.Insertable | app.py:22-25 | the unique constraint on the code column accepts a batch exactly when its codes differ from each other and from the table's; `ProvisionCommits`, `ProvisionRollsBack` and `FreshUuidsInsertable` carry its consequences |
| Provisioning.AddVirginsAddsBatch | app.py:89-93 | adding a batch that passes the unique constraint adds exactly its codes, each as a virgin row, grows the table by the batch length, and keeps every existing row |
| Provisioning.Provision | app.py:83-97 | a reply that is not a success leaves the table unchanged; a success is status 200, adds exactly `count` rows and keeps every existing row |
| Provisioning.GateClosedDenies | app.py:85-86 | outside production the reply is 403 "Acceso denegado." and nothing is created |
| Provisioning.ProvisionCommits | app.py:88-94 | in production, with the database available, a batch that passes the unique constraint is committed with 200: the new codes are exactly the batch's codes, each row is virgin, the old rows are unchanged, and every new code is well formed and fits its column |
| Provisioning.ProvisionRollsBack | app.py:88-97 | in production, a database failure or a duplicate code rolls the whole batch back and answers 500 |
| Provisioning.FreshUuidsInsertable | app.py:22-31 | distinct UUIDs whose codes are not already in the table always pass the unique constraint |
| Provisioning.AddVirginsGrowsPool | app.py:89-93 | adding a batch that passes the unique constraint adds its length to the number of unactivated rows |
| Provisioning.ProvisionGrowsUnactivatedPool | app.py:88-94 | a committed batch adds exactly `count` licenses to the pool of unactivated rows |
| Provisioning.ProvisionPreservesWellFormed | app.py:88-93 | provisioning only adds virgin rows, so the table stays well formed |
| Provisioning.ProvisionedCodeActivatesOnce | app.py:65-79 | when its commit is accepted, the first request for a freshly provisioned code is a first activation with 200 and the fresh token; after any further requests handled one at a time the row still holds that HWID and that token |

## Left out

- Flask transport: JSON parsing, `jsonify`, routing and `app.run` (app.py:5-9, 38, 82, 101-106). A reply is the `Response` datatype. A request body that is not a JSON object, and `codigo`/`hwid` values that are not strings, are not modelled. The inputs are optional strings, and "missing" means absent or empty, as Python truthiness treats a string.
- SQLAlchemy session internals (query, add, commit, rollback). The table is an immutable map. A commit returns the new map and a rollback returns the old one.
- Randomness. The fresh token and the UUID texts are parameters. `Provision` requires each UUID text to have the canonical 8-4-4-4-12 lower-case hex form that `uuid.uuid4` always produces. The UUID version and variant digits are not constrained. The format of `secrets.token_hex(32)` is not constrained.
- The `RAILWAY_ENVIRONMENT` and `DATABASE_URL` environment reads. The first is a parameter; the second is configuration.
- Database failures other than the code uniqueness constraint during provisioning. They are a single `storeAvailable` flag.
- Activation.Activate: does not model a database failure during the lookup (app.py:48). Such a failure escapes the handler and the framework answers 500 with nothing written. Only the first activation's commit (app.py:73) has a failure path, `commitAccepted`.
- The body of the 500 reply to a rejected activation commit. The framework answers with its own error page, which has no `success` field, and under `app.run(debug=True)` (app.py:106) it is the debugger's traceback page. Only the status 500 and the absence of any write are modelled; the `success` false and `"Internal Server Error"` message of `Activation.ServerErrorMessage` stand in for that page.
- The 500 reply's exception text in provisioning. Only its `"Error: "` prefix is modelled.
- The surrogate `id` column. It is never read by the endpoints. Rows are keyed by their unique code.
- The widths of the `hwid_vinculado` (100) and `token_local` (64) columns. Whether an over-long value is rejected depends on the database engine, and the code does not check it.
- Upper-casing covers ASCII letters only. Python's `str.upper` also maps non-ASCII letters, but a UUID text has none.
- Concurrency. The server may handle requests in parallel, and nothing locks a row between the read at app.py:48 and the write at app.py:69-73. Activation.Run, Activation.StableToken, Activation.BindingImmutable, Activation.SuccessesMatchBinding, Activation.OneMachinePerCode and Provisioning.ProvisionedCodeActivatesOnce describe requests handled one at a time, which is what a row lock would give. Two first activations of one code at the same time are modelled only by `ActivateInterleaved`; the lost update it allows is listed under Findings.
- The 1–100 bound on the provisioning count. The code does not enforce it.
- Features the code does not have: expiration, renewal or stacking of validity time, buyer e-mail, and key allocation to buyers.

## Findings

| source | as written | input that shows it | evidently intended | confidence | as-written member | corrected member |
|---|---|---|---|---|---|---|
| app.py:48-79 | the row is read and later written with no row lock, so two first activations of one code served at the same time both succeed and the second overwrites the first binding | an unactivated code activated at the same time from machines "A" and "B", both commits accepted: both get 200 and a token, and the row ends bound to "B" | a license binds to one machine only; the second request should be refused with 403 | not executed | Activation.LostUpdate | Activation.OneMachinePerCode |

=== FILE: activation.dfy ===
/** The activation endpoint: a client sends a license code and the hardware id
    of its machine. A row that was never activated is bound to that machine and
    receives a fresh token; a bound row only answers again to the same machine.

    The token is drawn by the caller (`freshToken`) and used only on a first
    activation. Whether the database accepts the first activation's commit is
    passed in as `commitAccepted`; a rejected commit escapes the handler, so
    the web framework answers with its generic 500 page and nothing is bound.
 */
module Activation {
  import opened LicenseModel

  const IncompleteMessage := "Datos incompletos."
  const UnknownCodeMessage := "Código de activación no válido."
  const RevalidatedMessage := "Licencia revalidada."
  const OtherMachineMessage := "Licencia ya en uso en otra máquina."
  const ActivatedMessage := "Activación exitosa."
  /** Body of the framework's default page for an error the handler does not catch. */
  const ServerErrorMessage := "Internal Server Error"

  /** Handles one activation request against `store`. */
  function Activate(store: Store, code: Option<string>, hwid: Option<string>, freshToken: string,
                    commitAccepted: bool): (out: Handled)
    ensures out.store.Keys == store.Keys
    ensures out.response.success <==> out.response.status == 200
    // a successful reply means the code is, from now on, bound to this machine
    ensures out.response.success ==>
      code.Some? && code.value in out.store && out.store[code.value].activated && out.store[code.value].boundHwid == hwid
    // the only row that can change is the requested one, and only from unactivated to bound
    ensures forall k :: k in store ==>
      || out.store[k] == store[k]
      || (code == Some(k) && hwid.Some? && !store[k].activated && out.store[k] == Bound(hwid.value, freshToken))
  {
    if !Present(code) || !Present(hwid) then
      Handled(Refusal(400, IncompleteMessage), store)
    else if code.value !in store then
      Handled(Refusal(404, UnknownCodeMessage), store)
    else
      var license := store[code.value];
      if license.activated then
        if license.boundHwid == hwid then
          Handled(Response(200, true, RevalidatedMessage, license.localToken), store)
        else
          Handled(Refusal(403, OtherMachineMessage), store)
      else if commitAccepted then
        Handled(Response(200, true, ActivatedMessage, Some(freshToken)),
                store[code.value := Bound(hwid.value, freshToken)])
      else
        Handled(Refusal(500, ServerErrorMessage), store)
  }

  /** A missing or empty code or hardware id is refused with 400 and touches nothing. */
  lemma MissingInputRejected(store: Store, code: Option<string>, hwid: Option<string>, freshToken: string,
                             commitAccepted: bool)
    requires !Present(code) || !Present(hwid)
    ensures var out := Activate(store, code, hwid, freshToken, commitAccepted);
      out.response == Response(400, false, IncompleteMessage, None) && out.store == store
  {
  }

  /** A code with no row is refused with 404 and touches nothing. */
  lemma UnknownCodeRejected(store: Store, code: string, hwid: string, freshToken: string, commitAccepted: bool)
    requires |code| > 0 && |hwid| > 0
    requires code !in store
    ensures var out := Activate(store, Some(code), Some(hwid), freshToken, commitAccepted);
      out.response == Response(404, false, UnknownCodeMessage, None) && out.store == store
  {
  }

  /** An activated row asked for from another machine is refused with 403 and touches nothing. */
  lemma CopyAttemptRejected(store: Store, code: string, hwid: string, freshToken: string, commitAccepted: bool)
    requires |code| > 0 && |hwid| > 0
    requires code in store && store[code].activated && store[code].boundHwid != Some(hwid)
    ensures var out := Activate(store, Some(code), Some(hwid), freshToken, commitAccepted);
      out.response == Response(403, false, OtherMachineMessage, None) && out.store == store
  {
  }

  /** An activated row asked for from its own machine answers 200 with the
      token it already stores; nothing is written and the fresh token is unused. */
  lemma RevalidationReturnsStoredToken(store: Store, code: string, hwid: string, freshToken: string, commitAccepted: bool)
    requires |code| > 0 && |hwid| > 0
    requires code in store && store[code].activated && store[code].boundHwid == Some(hwid)
    ensures var out := Activate(store, Some(code), Some(hwid), freshToken, commitAccepted);
      && out.response == Response(200, true, RevalidatedMessage, store[code].localToken)
      && out.store == store
  {
  }

  /** The first activation of a row binds it to the machine, stores the fresh
      token, answers 200 with that token and leaves every other row alone. */
  lemma FirstActivationBinds(store: Store, code: string, hwid: string, freshToken: string)
    requires |code| > 0 && |hwid| > 0
    requires code in store && !store[code].activated
    ensures var out := Activate(store, Some(code), Some(hwid), freshToken, true);
      && out.response == Response(200, true, ActivatedMessage, Some(freshToken))
      && out.store[code] == License(true, Some(hwid), Some(freshToken))
      && out.store.Keys == store.Keys
      && forall k :: k in store && k != code ==> out.store[k] == store[k]
  {
  }

  /** A first activation whose commit the database rejects answers 500 and binds nothing. */
  lemma FirstActivationCommitFails(store: Store, code: string, hwid: string, freshToken: string)
    requires |code| > 0 && |hwid| > 0
    requires code in store && !store[code].activated
    ensures var out := Activate(store, Some(code), Some(hwid), freshToken, false);
      out.response == Response(500, false, ServerErrorMessage, None) && out.store == store
  {
  }

  /** Exactly the requests from the machine a row is (or becomes) bound to succeed. */
  lemma SuccessExactlyWhenMachineMatches(store: Store, code: Option<string>, hwid: Option<string>, freshToken: string,
                                         commitAccepted: bool)
    ensures Activate(store, code, hwid, freshToken, commitAccepted).response.success <==>
      && Present(code) && Present(hwid) && code.value in store
      && (if store[code.value].activated then store[code.value].boundHwid == hwid else commitAccepted)
  {
  }

  /** Activating twice from the same machine returns the same token twice; the
      second call (a revalidation) writes nothing. */
  lemma StableToken(store: Store, code: Option<string>, hwid: Option<string>, token1: string, token2: string,
                    commit1: bool, commit2: bool)
    requires Activate(store, code, hwid, token1, commit1).response.success
    ensures var first := Activate(store, code, hwid, token1, commit1);
      var second := Activate(first.store, code, hwid, token2, commit2);
      && second.response.success
      && second.response.token == first.response.token
      && second.store == first.store
  {
  }

  /** Activation keeps every row either untouched or properly bound. */
  lemma ActivatePreservesWellFormed(store: Store, code: Option<string>, hwid: Option<string>, freshToken: string,
                                    commitAccepted: bool)
    requires WellFormed(store)
    ensures WellFormed(Activate(store, code, hwid, freshToken, commitAccepted).store)
  {
  }

  /** One activation request as it reaches the server, with the token the
      server would draw for it and whether the database would accept its commit. */
  datatype Request = Request(code: Option<string>, hwid: Option<string>, freshToken: string, commitAccepted: bool)

  /** The replies to a series of requests and the table after them. */
  datatype Trace = Trace(responses: seq<Response>, store: Store)

  /** Handles `requests` one after the other, each against the table the previous left. */
  function Run(store: Store, requests: seq<Request>): (t: Trace)
    ensures |t.responses| == |requests|
    ensures t.store.Keys == store.Keys
    decreases |requests|
  {
    if |requests| == 0 then Trace([], store)
    else
      var r := requests[0];
      var step := Activate(store, r.code, r.hwid, r.freshToken, r.commitAccepted);
      var rest := Run(step.store, requests[1..]);
      Trace([step.response] + rest.responses, rest.store)
  }

  /** Once a row is activated, no series of activation requests changes it:
      neither its hardware id nor its token. */
  lemma {:induction false} BindingImmutable(store: Store, requests: seq<Request>, code: string)
    requires code in store && store[code].activated
    ensures code in Run(store, requests).store
    ensures Run(store, requests).store[code] == store[code]
    decreases |requests|
  {
    if |requests| > 0 {
      var r := requests[0];
      var step := Activate(store, r.code, r.hwid, r.freshToken, r.commitAccepted);
      assert step.store[code] == store[code];
      BindingImmutable(step.store, requests[1..], code);
    }
  }

  /** Every request that succeeds on an activated row comes from the machine it is bound to. */
  lemma {:induction false} SuccessesMatchBinding(store: Store, requests: seq<Request>, code: string)
    requires code in store && store[code].activated
    ensures forall i ::
              0 <= i < |requests| && requests[i].code == Some(code) && Run(store, requests).responses[i].success
              ==> requests[i].hwid == store[code].boundHwid
    decreases |requests|
  {
    if |requests| > 0 {
      var r := requests[0];
      var step := Activate(store, r.code, r.hwid, r.freshToken, r.commitAccepted);
      assert step.store[code] == store[code];
      SuccessesMatchBinding(step.store, requests[1..], code);
      var t := Run(store, requests);
      forall i | 0 <= i < |requests| && requests[i].code == Some(code) && t.responses[i].success
        ensures requests[i].hwid == store[code].boundHwid
      {
        if i > 0 {
          assert requests[i] == requests[1..][i - 1];
          assert t.responses[i] == Run(step.store, requests[1..]).responses[i - 1];
        }
      }
    }
  }

  /** A license serves one machine only: two successful requests for the same
      code, anywhere in a series, come from the same machine. */
  lemma {:induction false} OneMachinePerCode(store: Store, requests: seq<Request>, i: nat, j: nat)
    requires i < |requests| && j < |requests|
    requires requests[i].code == requests[j].code
    requires Run(store, requests).responses[i].success && Run(store, requests).responses[j].success
    ensures requests[i].hwid == requests[j].hwid
    decreases |requests|
  {
    var r := requests[0];
    var step := Activate(store, r.code, r.hwid, r.freshToken, r.commitAccepted);
    var rest := requests[1..];
    var t := Run(store, requests);
    assert t.responses[1..] == Run(step.store, rest).responses;
    if i > 0 && j > 0 {
      assert requests[i] == rest[i - 1] && requests[j] == rest[j - 1];
      assert t.responses[i] == Run(step.store, rest).responses[i - 1];
      assert t.responses[j] == Run(step.store, rest).responses[j - 1];
      OneMachinePerCode(step.store, rest, i - 1, j - 1);
    } else if i != j {
      // the request at position 0 succeeded and bound its code to its machine
      var k := if i == 0 then j else i;
      var code := r.code.value;
      assert t.responses[0] == step.response;
      SuccessesMatchBinding(step.store, rest, code);
      assert requests[k] == rest[k - 1];
      assert t.responses[k] == Run(step.store, rest).responses[k - 1];
    }
  }

  /** Two requests served at the same time with no row lock, as the handler
      allows: both read the table before either writes, then both write, and
      the row written second replaces the one written first. */
  function ActivateInterleaved(store: Store, first: Request, second: Request): (t: Trace)
    ensures |t.responses| == 2
    ensures t.store.Keys == store.Keys
    // every final row is the old row or the row one of the two requests wrote
    ensures forall k :: k in store ==>
      || t.store[k] == store[k]
      || t.store[k] == Activate(store, first.code, first.hwid, first.freshToken, first.commitAccepted).store[k]
      || t.store[k] == Activate(store, second.code, second.hwid, second.freshToken, second.commitAccepted).store[k]
  {
    var a := Activate(store, first.code, first.hwid, first.freshToken, first.commitAccepted);
    var b := Activate(store, second.code, second.hwid, second.freshToken, second.commitAccepted);
    Trace([a.response, b.response], map k | k in store :: if b.store[k] != store[k] then b.store[k] else a.store[k])
  }

  /** Lost update: two machines that activate the same new code at the same time,
      both commits accepted, both get 200 and a token, and the row ends up bound to the second one, so
      the first machine holds a token the table no longer records. */
  lemma LostUpdate(store: Store, code: string, hwid1: string, hwid2: string, token1: string, token2: string)
    requires |code| > 0 && |hwid1| > 0 && |hwid2| > 0 && hwid1 != hwid2
    requires code in store && !store[code].activated
    ensures var t := ActivateInterleaved(store, Request(Some(code), Some(hwid1), token1, true),
                                                Request(Some(code), Some(hwid2), token2, true));
      && t.responses[0] == Response(200, true, ActivatedMessage, Some(token1))
      && t.responses[1] == Response(200, true, ActivatedMessage, Some(token2))
      && t.store[code] == Bound(hwid2, token2)
  {
  }

  /** The same two requests served one after the other, both commits accepted: the second machine is
      refused and the row keeps the first machine and its token. */
  lemma SerializedActivationRefusesSecond(store: Store, code: string, hwid1: string, hwid2: string,
                                          token1: string, token2: string)
    requires |code| > 0 && |hwid1| > 0 && |hwid2| > 0 && hwid1 != hwid2
    requires code in store && !store[code].activated
    ensures var t := Run(store, [Request(Some(code), Some(hwid1), token1, true),
                                 Request(Some(code), Some(hwid2), token2, true)]);
      && t.responses[0] == Response(200, true, ActivatedMessage, Some(token1))
      && t.responses[1] == Response(403, false, OtherMachineMessage, None)
      && t.store[code] == Bound(hwid1, token1)
  {
    var requests := [Request(Some(code), Some(hwid1), token1, true), Request(Some(code), Some(hwid2), token2, true)];
    var step := Activate(store, Some(code), Some(hwid1), token1, true);
    assert step.store[code] == Bound(hwid1, token1);
    var step2 := Activate(step.store, Some(code), Some(hwid2), token2, true);
    assert requests[1..] == [requests[1]];
    assert Run(step.store, [requests[1]]) == Trace([step2.response], step2.store) by {
      assert [requests[1]][1..] == [];
    }
  }
}

=== FILE: license_codes.dfy ===
/** License codes: the text of a random version-4 UUID with its separators
    removed and its letters turned to upper case. The UUID itself is drawn by
    the caller; this module is about the text transformation and shows that it
    loses nothing, so distinct UUIDs give distinct codes.
 */
module LicenseCodes {

  predicate IsLowerHex(c: char) {
    '0' <= c <= '9' || 'a' <= c <= 'f'
  }

  predicate IsUpperHex(c: char) {
    '0' <= c <= '9' || 'A' <= c <= 'F'
  }

  /** Where the four '-' separators sit in the 8-4-4-4-12 text form. */
  predicate IsSeparatorPosition(i: int) {
    i == 8 || i == 13 || i == 18 || i == 23
  }

  /** The canonical text of a UUID: 36 characters, lower-case hex digits
      in groups of 8, 4, 4, 4 and 12 separated by '-'. */
  predicate IsUuidText(u: string) {
    && |u| == 36
    && forall i :: 0 <= i < |u| ==> if IsSeparatorPosition(i) then u[i] == '-' else IsLowerHex(u[i])
  }

  /** A license code as provisioning issues it: 32 upper-case hex digits. */
  predicate IsLicenseCode(c: string) {
    |c| == 32 && forall i :: 0 <= i < |c| ==> IsUpperHex(c[i])
  }

  /** Declared width of the license code column. */
  const CodeColumnWidth: nat := 36

  /** ASCII upper-casing; characters other than 'a'..'z' are kept. */
  function UpperChar(c: char): char {
    if 'a' <= c <= 'z' then (c as int - 32) as char else c
  }

  /** ASCII lower-casing; characters other than 'A'..'Z' are kept. */
  function LowerChar(c: char): char {
    if 'A' <= c <= 'Z' then (c as int + 32) as char else c
  }

  /** `s` with every ASCII lower-case letter upper-cased. */
  function Upper(s: string): (r: string)
    ensures |r| == |s|
    ensures forall i :: 0 <= i < |r| ==> !('a' <= r[i] <= 'z')
    // only the case of letters changes
    ensures forall i :: 0 <= i < |r| ==> LowerChar(r[i]) == LowerChar(s[i])
  {
    seq(|s|, i requires 0 <= i < |s| => UpperChar(s[i]))
  }

  /** Every '-' of `s` dropped, the other characters kept in order. */
  function RemoveDashes(s: string): (r: string)
    ensures |r| <= |s|
    ensures forall c :: c in r <==> c in s && c != '-'
  {
    if |s| == 0 then []
    else if s[0] == '-' then RemoveDashes(s[1..])
    else [s[0]] + RemoveDashes(s[1..])
  }

  /** The code issued for the UUID whose text is `u`. */
  function GenerateCode(u: string): (code: string)
    ensures |code| <= |u|
    ensures '-' !in code
  {
    var digits := RemoveDashes(u);
    assert forall i :: 0 <= i < |digits| ==> digits[i] in digits && digits[i] != '-';
    Upper(digits)
  }

  /** Position in the UUID text of the `j`-th hex digit. */
  function DigitPosition(j: int): int {
    if j < 8 then j else if j < 12 then j + 1 else if j < 16 then j + 2 else if j < 20 then j + 3 else j + 4
  }

  /** Number of hex digits before position `i` of the UUID text. */
  function DigitIndex(i: int): int {
    if i < 8 then i else if i < 13 then i - 1 else if i < 18 then i - 2 else if i < 23 then i - 3 else i - 4
  }

  /** The UUID text a 32-character code was made from: separators put back,
      letters lower-cased. */
  function UuidTextOf(code: string): string
    requires |code| == 32
  {
    seq(36, i requires 0 <= i < 36 =>
      if IsSeparatorPosition(i) then '-' else LowerChar(code[DigitIndex(i)]))
  }

  lemma {:induction false} RemoveDashesConcat(a: string, b: string)
    ensures RemoveDashes(a + b) == RemoveDashes(a) + RemoveDashes(b)
    decreases |a|
  {
    if |a| == 0 {
      assert a + b == b;
    } else {
      assert (a + b)[1..] == a[1..] + b;
      RemoveDashesConcat(a[1..], b);
    }
  }

  lemma {:induction false} RemoveDashesNoDash(s: string)
    requires '-' !in s
    ensures RemoveDashes(s) == s
    decreases |s|
  {
    if |s| > 0 {
      assert s == [s[0]] + s[1..];
      RemoveDashesNoDash(s[1..]);
    }
  }

  /** The hex digits of a UUID text, read off by position. */
  function HexDigits(u: string): string
    requires |u| == 36
  {
    seq(32, j requires 0 <= j < 32 => u[DigitPosition(j)])
  }

  /** Dropping one separator after a dash-free group. */
  lemma RemoveDashesAfterGroup(g: string, rest: string)
    requires '-' !in g
    ensures RemoveDashes(g + ['-'] + rest) == g + RemoveDashes(rest)
  {
    RemoveDashesConcat(g + ['-'], rest);
    RemoveDashesConcat(g, ['-']);
    RemoveDashesNoDash(g);
  }

  /** The hex digits of a canonical UUID text are its five groups, joined. */
  lemma HexDigitsAreGroups(u: string)
    requires IsUuidText(u)
    ensures HexDigits(u) == u[0..8] + u[9..13] + u[14..18] + u[19..23] + u[24..36]
  {
  }

  /** Removing the separators of a canonical UUID text leaves exactly its 32 hex digits. */
  lemma RemoveDashesOfUuid(u: string)
    requires IsUuidText(u)
    ensures RemoveDashes(u) == HexDigits(u)
  {
    var g0, g1, g2, g3, g4 := u[0..8], u[9..13], u[14..18], u[19..23], u[24..36];
    assert '-' !in g0 && '-' !in g1 && '-' !in g2 && '-' !in g3 && '-' !in g4 by {
      assert forall i :: 0 <= i < 36 && !IsSeparatorPosition(i) ==> u[i] != '-';
    }
    assert u[8] == '-' && u[13] == '-' && u[18] == '-' && u[23] == '-' by {
      assert IsSeparatorPosition(8) && IsSeparatorPosition(13) && IsSeparatorPosition(18) && IsSeparatorPosition(23);
    }
    assert u == g0 + ['-'] + u[9..];
    assert u[9..] == g1 + ['-'] + u[14..];
    assert u[14..] == g2 + ['-'] + u[19..];
    assert u[19..] == g3 + ['-'] + g4;
    RemoveDashesAfterGroup(g0, u[9..]);
    RemoveDashesAfterGroup(g1, u[14..]);
    RemoveDashesAfterGroup(g2, u[19..]);
    RemoveDashesAfterGroup(g3, g4);
    RemoveDashesNoDash(g4);
    HexDigitsAreGroups(u);
  }

  /** A canonical UUID text yields a 32-digit upper-case hex code with no '-',
      which fits the 36-character code column. */
  lemma GenerateCodeShape(u: string)
    requires IsUuidText(u)
    ensures IsLicenseCode(GenerateCode(u))
    ensures '-' !in GenerateCode(u)
    ensures |GenerateCode(u)| <= CodeColumnWidth
  {
    RemoveDashesOfUuid(u);
    var code := GenerateCode(u);
    forall j | 0 <= j < 32
      ensures IsUpperHex(code[j])
    {
      assert !IsSeparatorPosition(DigitPosition(j));
    }
  }

  /** Putting the separators back and lower-casing recovers the UUID text. */
  lemma UuidTextOfGenerateCode(u: string)
    requires IsUuidText(u)
    ensures |GenerateCode(u)| == 32
    ensures UuidTextOf(GenerateCode(u)) == u
  {
    RemoveDashesOfUuid(u);
    var code := GenerateCode(u);
    var back := UuidTextOf(code);
    forall i | 0 <= i < 36
      ensures back[i] == u[i]
    {
      if !IsSeparatorPosition(i) {
        assert DigitPosition(DigitIndex(i)) == i;
      }
    }
  }

  /** Every well-formed code is the code of the canonical UUID text `UuidTextOf` gives
      (and of no other, by `GenerateCodeInjective`). */
  lemma GenerateCodeOfUuidText(code: string)
    requires IsLicenseCode(code)
    ensures IsUuidText(UuidTextOf(code))
    ensures GenerateCode(UuidTextOf(code)) == code
  {
    var u := UuidTextOf(code);
    assert IsUuidText(u);
    RemoveDashesOfUuid(u);
    var back := GenerateCode(u);
    forall j | 0 <= j < 32
      ensures back[j] == code[j]
    {
      assert !IsSeparatorPosition(DigitPosition(j)) && DigitIndex(DigitPosition(j)) == j;
    }
  }

  /** Distinct UUIDs give distinct license codes. */
  lemma GenerateCodeInjective(u1: string, u2: string)
    requires IsUuidText(u1) && IsUuidText(u2)
    ensures GenerateCode(u1) == GenerateCode(u2) <==> u1 == u2
  {
    UuidTextOfGenerateCode(u1);
    UuidTextOfGenerateCode(u2);
  }
}

=== FILE: license_model.dfy ===
/** The license table of the activation server and the shape of its replies.

    Each row is one sellable activation right. Rows are keyed by their license
    code, which the table declares unique; the surrogate integer id is never read
    by the endpoints and is not part of this model.
 */
module LicenseModel {

  datatype Option<+T> = None | Some(value: T)

  /** One license row: whether it has been activated, the hardware id it is
      bound to and the token handed to the client on activation. */
  datatype License = License(activated: bool, boundHwid: Option<string>, localToken: Option<string>)

  /** A row as bulk provisioning creates it: column defaults only. */
  const Virgin := License(false, None, None)

  /** A row after its first activation from machine `hwid`. */
  function Bound(hwid: string, token: string): License {
    License(true, Some(hwid), Some(token))
  }

  /** The license table, indexed by license code. */
  type Store = map<string, License>

  /** Python truthiness of an optional string request field: present and not empty. */
  predicate Present(field: Option<string>) {
    field.Some? && |field.value| > 0
  }

  /** The rows the two endpoints can produce: untouched, or bound to a
      non-empty hardware id together with a token. */
  predicate WellFormedLicense(l: License) {
    l == Virgin || (l.activated && l.boundHwid.Some? && |l.boundHwid.value| > 0 && l.localToken.Some?)
  }

  predicate WellFormed(s: Store) {
    forall k :: k in s ==> WellFormedLicense(s[k])
  }

  /** Codes of the rows no machine has claimed yet. */
  function UnactivatedCodes(s: Store): set<string> {
    set k | k in s && !s[k].activated
  }

  /** The JSON body and HTTP status of a reply. */
  datatype Response = Response(status: nat, success: bool, message: string, token: Option<string>)

  function Refusal(status: nat, message: string): Response {
    Response(status, false, message, None)
  }

  /** What one request returns, together with the table after it is handled
      (the committed table, or the unchanged one). */
  datatype Handled = Handled(response: Response, store: Store)
}

=== FILE: provisioning.dfy ===
/** The administrative bulk-provisioning endpoint: in production it creates
    `count` untouched license rows in one transaction, each with a code derived
    from a fresh UUID; elsewhere it refuses.

    The UUID texts are drawn by the caller (`uuids`), the deployment
    environment variable is passed in (`environment`), and whether the database
    accepts a commit for reasons other than the code uniqueness constraint is
    passed in as `storeAvailable`.
 */
module Provisioning {
  import opened LicenseModel
  import opened LicenseCodes
  import Activation

  /** The only deployment environment in which provisioning runs. */
  const ProductionEnvironment := "production"

  const DeniedMessage := "Acceso denegado."
  const ErrorMessagePrefix := "Error: "

  function DigitChar(d: nat): char
    requires d < 10
  {
    ('0' as int + d) as char
  }

  /** Decimal text of `n`, as Python formats an int. */
  function DecimalText(n: nat): (r: string)
    ensures |r| > 0
    ensures forall i :: 0 <= i < |r| ==> '0' <= r[i] <= '9'
    // no leading zero: only zero itself is written starting with '0'
    ensures r[0] == '0' ==> n == 0
    decreases n
  {
    if n < 10 then [DigitChar(n)] else DecimalText(n / 10) + [DigitChar(n % 10)]
  }

  /** The number a string of decimal digits denotes. */
  function DecimalValue(s: string): nat
    requires forall i :: 0 <= i < |s| ==> '0' <= s[i] <= '9'
    decreases |s|
  {
    if |s| == 0 then 0 else 10 * DecimalValue(s[..|s| - 1]) + (s[|s| - 1] as int - '0' as int)
  }

  /** The count in the success message reads back as the count. */
  lemma {:induction false} DecimalRoundTrip(n: nat)
    ensures DecimalValue(DecimalText(n)) == n
    decreases n
  {
    var r := DecimalText(n);
    if n >= 10 {
      assert r[..|r| - 1] == DecimalText(n / 10);
      DecimalRoundTrip(n / 10);
    }
  }

  const SuccessPrefix := "Se generaron y guardaron "
  const SuccessSuffix := " licencias únicas."

  /** The success message: the count, in decimal, between a fixed prefix and suffix. */
  function SuccessMessage(count: nat): (m: string)
    ensures |m| > |SuccessPrefix| + |SuccessSuffix|
    ensures m[..|SuccessPrefix|] == SuccessPrefix && m[|m| - |SuccessSuffix|..] == SuccessSuffix
    ensures var digits := m[|SuccessPrefix|..|m| - |SuccessSuffix|];
      && (forall i :: 0 <= i < |digits| ==> '0' <= digits[i] <= '9')
      && DecimalValue(digits) == count
  {
    var digits := DecimalText(count);
    var m := SuccessPrefix + digits + SuccessSuffix;
    assert m[|SuccessPrefix|..|m| - |SuccessSuffix|] == digits;
    DecimalRoundTrip(count);
    m
  }

  /** The codes of one batch, in the order the rows are added. */
  function BatchCodes(uuids: seq<string>): (codes: seq<string>)
    ensures |codes| == |uuids|
  {
    seq(|uuids|, i requires 0 <= i < |uuids| => GenerateCode(uuids[i]))
  }

  predicate Distinct(s: seq<string>) {
    forall i, j :: 0 <= i < j < |s| ==> s[i] != s[j]
  }

  /** The unique constraint on the code column accepts the batch: its codes
      differ from each other and from every code already in the table. */
  predicate Insertable(store: Store, codes: seq<string>) {
    Distinct(codes) && forall i :: 0 <= i < |codes| ==> codes[i] !in store
  }

  /** The table with one untouched row added per code, in order. */
  function AddVirgins(store: Store, codes: seq<string>): (r: Store)
    ensures store.Keys <= r.Keys
    decreases |codes|
  {
    if |codes| == 0 then store else AddVirgins(store[codes[0] := Virgin], codes[1..])
  }

  /** Every code of the batch ends up as an untouched row. */
  lemma {:induction false} AddVirginsAddsRows(store: Store, codes: seq<string>)
    ensures forall i :: 0 <= i < |codes| ==> codes[i] in AddVirgins(store, codes) && AddVirgins(store, codes)[codes[i]] == Virgin
    decreases |codes|
  {
    if |codes| > 0 {
      var rest := codes[1..];
      AddVirginsAddsRows(store[codes[0] := Virgin], rest);
      AddVirginsKeepsRows(store[codes[0] := Virgin], rest, codes[0]);
      forall i | 1 <= i < |codes|
        ensures codes[i] == rest[i - 1]
      {
      }
    }
  }

  /** A row whose code is not in the batch is kept as it was. */
  lemma {:induction false} AddVirginsKeepsRows(store: Store, codes: seq<string>, k: string)
    requires k in store
    requires forall i :: 0 <= i < |codes| ==> codes[i] != k || store[k] == Virgin
    ensures k in AddVirgins(store, codes) && AddVirgins(store, codes)[k] == store[k]
    decreases |codes|
  {
    if |codes| > 0 {
      var rest := codes[1..];
      forall i | 0 <= i < |rest|
        ensures rest[i] != k || store[codes[0] := Virgin][k] == Virgin
      {
        assert rest[i] == codes[i + 1];
      }
      AddVirginsKeepsRows(store[codes[0] := Virgin], rest, k);
    }
  }

  /** The table gains exactly the codes of the batch. */
  lemma {:induction false} AddVirginsKeys(store: Store, codes: seq<string>)
    ensures AddVirgins(store, codes).Keys == store.Keys + (set c | c in codes)
    decreases |codes|
  {
    if |codes| > 0 {
      var rest := codes[1..];
      AddVirginsKeys(store[codes[0] := Virgin], rest);
      assert codes == [codes[0]] + rest;
      assert (set c | c in codes) == {codes[0]} + (set c | c in rest);
    }
  }

  /** An acceptable batch grows the table by its length. */
  lemma {:induction false} AddVirginsSize(store: Store, codes: seq<string>)
    requires Insertable(store, codes)
    ensures |AddVirgins(store, codes)| == |store| + |codes|
    decreases |codes|
  {
    if |codes| > 0 {
      var next := store[codes[0] := Virgin];
      var rest := codes[1..];
      assert Insertable(next, rest) by {
        forall i | 0 <= i < |rest|
          ensures rest[i] !in next
        {
          assert rest[i] == codes[i + 1];
        }
      }
      AddVirginsSize(next, rest);
    }
  }

  /** Adding an acceptable batch adds exactly its codes, as untouched rows,
      and keeps every existing row. */
  lemma AddVirginsAddsBatch(store: Store, codes: seq<string>)
    requires Insertable(store, codes)
    ensures AddVirgins(store, codes).Keys == store.Keys + (set c | c in codes)
    ensures |AddVirgins(store, codes)| == |store| + |codes|
    ensures forall k :: k in store ==> AddVirgins(store, codes)[k] == store[k]
    ensures forall i :: 0 <= i < |codes| ==> AddVirgins(store, codes)[codes[i]] == Virgin
  {
    AddVirginsKeys(store, codes);
    AddVirginsSize(store, codes);
    AddVirginsAddsRows(store, codes);
    forall k | k in store
      ensures AddVirgins(store, codes)[k] == store[k]
    {
      AddVirginsKeepsRows(store, codes, k);
    }
  }

  /** Handles `POST /admin/generar_claves/<count>`. */
  function Provision(store: Store, environment: Option<string>, count: nat, uuids: seq<string>, storeAvailable: bool): (out: Handled)
    requires |uuids| == count
    requires forall i :: 0 <= i < |uuids| ==> IsUuidText(uuids[i])
    // all or nothing: a refusal or failure leaves the table as it was
    ensures !out.response.success ==> out.store == store
    // a success adds exactly `count` rows and keeps the existing ones
    ensures out.response.success ==>
      && out.response.status == 200
      && |out.store| == |store| + count
      && forall k :: k in store ==> k in out.store && out.store[k] == store[k]
  {
    if environment != Some(ProductionEnvironment) then
      Handled(Refusal(403, DeniedMessage), store)
    else
      var codes := BatchCodes(uuids);
      if storeAvailable && Insertable(store, codes) then
        AddVirginsAddsBatch(store, codes);
        Handled(Response(200, true, SuccessMessage(count), None), AddVirgins(store, codes))
      else
        Handled(Refusal(500, ErrorMessagePrefix), store)
  }

  /** Outside production the endpoint answers 403 and creates nothing. */
  lemma GateClosedDenies(store: Store, environment: Option<string>, count: nat, uuids: seq<string>, storeAvailable: bool)
    requires |uuids| == count
    requires forall i :: 0 <= i < |uuids| ==> IsUuidText(uuids[i])
    requires environment != Some(ProductionEnvironment)
    ensures var out := Provision(store, environment, count, uuids, storeAvailable);
      out.response == Response(403, false, DeniedMessage, None) && out.store == store
  {
  }

  /** In production, with the database available, a batch the table accepts is committed: 200, exactly the
      batch's codes are added, each as an untouched row with a well-formed code. */
  lemma ProvisionCommits(store: Store, count: nat, uuids: seq<string>)
    requires |uuids| == count
    requires forall i :: 0 <= i < |uuids| ==> IsUuidText(uuids[i])
    requires Insertable(store, BatchCodes(uuids))
    ensures var out := Provision(store, Some(ProductionEnvironment), count, uuids, true);
      && out.response == Response(200, true, SuccessMessage(count), None)
      && out.store.Keys == store.Keys + (set i | 0 <= i < count :: GenerateCode(uuids[i]))
      && |out.store| == |store| + count
      && (forall k :: k in store ==> out.store[k] == store[k])
      && (forall i :: 0 <= i < count ==> out.store[GenerateCode(uuids[i])] == Virgin)
      && (forall k :: k in out.store && k !in store ==> IsLicenseCode(k) && |k| <= CodeColumnWidth)
  {
    var codes := BatchCodes(uuids);
    AddVirginsAddsBatch(store, codes);
    var out := Provision(store, Some(ProductionEnvironment), count, uuids, true);
    assert out.store == AddVirgins(store, codes);
    BatchCodesSet(uuids);
    forall i | 0 <= i < count
      ensures out.store[GenerateCode(uuids[i])] == Virgin
    {
      assert codes[i] == GenerateCode(uuids[i]);
    }
    forall k | k in out.store && k !in store
      ensures IsLicenseCode(k) && |k| <= CodeColumnWidth
    {
      var i :| 0 <= i < count && GenerateCode(uuids[i]) == k;
      GenerateCodeShape(uuids[i]);
    }
  }

  lemma BatchCodesSet(uuids: seq<string>)
    ensures (set c | c in BatchCodes(uuids)) == set i | 0 <= i < |uuids| :: GenerateCode(uuids[i])
  {
    var codes := BatchCodes(uuids);
    forall c | c in codes
      ensures c in set i | 0 <= i < |uuids| :: GenerateCode(uuids[i])
    {
      var i :| 0 <= i < |codes| && codes[i] == c;
    }
    forall i | 0 <= i < |uuids|
      ensures GenerateCode(uuids[i]) in codes
    {
      assert codes[i] == GenerateCode(uuids[i]);
    }
  }

  /** In production, a store failure or a code the unique constraint rejects
      rolls the whole batch back and answers 500. */
  lemma ProvisionRollsBack(store: Store, count: nat, uuids: seq<string>, storeAvailable: bool)
    requires |uuids| == count
    requires forall i :: 0 <= i < |uuids| ==> IsUuidText(uuids[i])
    requires !storeAvailable || !Insertable(store, BatchCodes(uuids))
    ensures var out := Provision(store, Some(ProductionEnvironment), count, uuids, storeAvailable);
      out.response == Response(500, false, ErrorMessagePrefix, None) && out.store == store
  {
  }

  /** Distinct UUIDs whose codes are new to the table always pass the unique
      constraint: codes clash only when the UUIDs do. */
  lemma FreshUuidsInsertable(store: Store, uuids: seq<string>)
    requires forall i :: 0 <= i < |uuids| ==> IsUuidText(uuids[i])
    requires Distinct(uuids)
    requires forall i :: 0 <= i < |uuids| ==> GenerateCode(uuids[i]) !in store
    ensures Insertable(store, BatchCodes(uuids))
  {
    var codes := BatchCodes(uuids);
    forall i, j | 0 <= i < j < |codes|
      ensures codes[i] != codes[j]
    {
      GenerateCodeInjective(uuids[i], uuids[j]);
    }
  }

  /** Each code of an acceptable batch joins the pool of unactivated licenses. */
  lemma {:induction false} AddVirginsGrowsPool(store: Store, codes: seq<string>)
    requires Insertable(store, codes)
    ensures |UnactivatedCodes(AddVirgins(store, codes))| == |UnactivatedCodes(store)| + |codes|
    decreases |codes|
  {
    if |codes| > 0 {
      var next := store[codes[0] := Virgin];
      var rest := codes[1..];
      assert Insertable(next, rest) by {
        forall i | 0 <= i < |rest|
          ensures rest[i] !in next
        {
          assert rest[i] == codes[i + 1];
        }
      }
      assert UnactivatedCodes(next) == UnactivatedCodes(store) + {codes[0]};
      AddVirginsGrowsPool(next, rest);
    }
  }

  /** A committed batch adds exactly `count` rows to the pool of unactivated licenses. */
  lemma ProvisionGrowsUnactivatedPool(store: Store, count: nat, uuids: seq<string>)
    requires |uuids| == count
    requires forall i :: 0 <= i < |uuids| ==> IsUuidText(uuids[i])
    requires Insertable(store, BatchCodes(uuids))
    ensures |UnactivatedCodes(Provision(store, Some(ProductionEnvironment), count, uuids, true).store)|
      == |UnactivatedCodes(store)| + count
  {
    var codes := BatchCodes(uuids);
    assert Provision(store, Some(ProductionEnvironment), count, uuids, true).store == AddVirgins(store, codes);
    AddVirginsGrowsPool(store, codes);
  }

  /** Provisioning only ever adds untouched rows, so it keeps the table well formed. */
  lemma ProvisionPreservesWellFormed(store: Store, environment: Option<string>, count: nat, uuids: seq<string>, storeAvailable: bool)
    requires |uuids| == count
    requires forall i :: 0 <= i < |uuids| ==> IsUuidText(uuids[i])
    requires WellFormed(store)
    ensures WellFormed(Provision(store, environment, count, uuids, storeAvailable).store)
  {
    var codes := BatchCodes(uuids);
    if environment == Some(ProductionEnvironment) && storeAvailable && Insertable(store, codes) {
      AddVirginsAddsBatch(store, codes);
    }
  }

  /** A freshly provisioned code is claimed by the first machine that sends it:
      when its commit is accepted that request performs a first activation, and from then on the row keeps
      that machine and that token. */
  lemma ProvisionedCodeActivatesOnce(store: Store, count: nat, uuids: seq<string>, i: nat,
                                     hwid: string, token: string, later: seq<Activation.Request>)
    requires |uuids| == count
    requires forall j :: 0 <= j < |uuids| ==> IsUuidText(uuids[j])
    requires Insertable(store, BatchCodes(uuids))
    requires i < count && |hwid| > 0
    ensures var code := GenerateCode(uuids[i]);
      var provisioned := Provision(store, Some(ProductionEnvironment), count, uuids, true).store;
      var first := Activation.Activate(provisioned, Some(code), Some(hwid), token, true);
      && first.response == Response(200, true, Activation.ActivatedMessage, Some(token))
      && Activation.Run(first.store, later).store[code] == Bound(hwid, token)
  {
    var code := GenerateCode(uuids[i]);
    ProvisionCommits(store, count, uuids);
    GenerateCodeShape(uuids[i]);
    var provisioned := Provision(store, Some(ProductionEnvironment), count, uuids, true).store;
    Activation.FirstActivationBinds(provisioned, code, hwid, token);
    var first := Activation.Activate(provisioned, Some(code), Some(hwid), token, true);
    Activation.BindingImmutable(first.store, later, code);
  }
}
